=== FILE: README.md ===
# Portfolio project grid and accent colours, in Dafny

This project models the decision logic of `script.js`, the client script of a
single-page portfolio. Three parts are covered.

- **Project grid** (`renderProjects`). A GitHub repository is shown only when its
  lower-cased name contains `fortal`, `taskhub` or `linktree`. The shown
  repositories are stably sorted by the first preference they match. Each card
  gets the local image of that preference and at most three topic tags.
- **Loader** (`loadGitHubProjects`). A cache entry younger than an hour that holds
  repositories is reused. If the stored value does not parse, the fallback card
  shows and nothing is fetched. Otherwise the listing is fetched, and if the
  write succeeds it is stored with a fresh timestamp. Any exception shows one
  fallback card linking the GitHub profile.
- **Colours**. `adjustBrightness` parses a hex colour with `parseInt(_, 16)`,
  shifts each channel by the same amount with saturation, and prints the result
  with `toString(16)`. The avatar's centre pixel is encoded as a `#rrggbb` accent
  unless it is too dark.

Modules:

- `Strings`: ASCII lower-casing, substring search, decimal numerals.
- `Hex`: hex digits, `toString(16)`, zero padding.
- `Seqs`: `filter`.
- `Sorting`: a stable sort by an integer key.
- `Projects`: the grid.
- `Loader`: the cache and the load outcome.
- `Colors`: the colour arithmetic.
- `Scenarios`: concrete working sets.

Everything is a pure function. The clock, the stored cache value, the fetch
response and the success of the cache write are all parameters of `Loader.Load`.

Behaviour of the code worth knowing:

- A cache entry that is fresh but holds an empty list is fetched again. The
  `repos.length === 0` test (script.js:102) cannot tell "no usable cache"
  apart from "cached nothing". `Loader.Decide` and `Loader.Load` reuse only
  fresh, non-empty entries.
- An empty description or language string counts as absent. The `||` at
  script.js:179 and the conditional at script.js:184 both treat an empty
  string as false.
- `extractAvatarColors` is defined (script.js:202-240), but the startup
  handler (script.js:1-7) never calls it. It is modelled as written, without a
  caller.
- An entry that `JSON.parse` rejects is never removed (script.js:94, 116-125).
  Every later load shows the fallback card without trying the network. See
  "## Findings".

## Model

| member | source | states |
|---|---|---|
| Strings.ToLower | script.js:136-147 | `toLowerCase` keeps the length and lower-cases each character on its own, mapping each upper-case ASCII letter to the same letter in lower case and leaving every other character unchanged |
| Strings.ContainsIff | script.js:136 | `includes` finds a substring exactly when some position of the name holds an occurrence of it |
| Strings.DecimalString | script.js:161 | the decimal text of an id starts with `-` iff the id is negative, then has only digits with no leading zero, and reads back to the same id |
| Projects.SomeContained | script.js:136 | `some` over the preference list holds iff some listed substring occurs in the name |
| Projects.FindIndex | script.js:141-142 | `findIndex` gives -1 iff nothing matches, else a matching position with no match before it |
| Projects.Kept | script.js:135-137 | a repository passes the filter iff its lower-cased name contains one of the three preferences |
| Projects.Rank | script.js:141-143 | the sort key is in -1..2 and is non-negative exactly for the repositories the filter keeps |
| Projects.RankCases | script.js:150-158 | the first-match index agrees with testing `fortal`, `taskhub`, `linktree` in that order |
| Projects.Keep | script.js:135-137 | the filter keeps each matching repository as often as it occurs, drops the rest, and yields a subsequence of the input |
| Sorting.SortBy | script.js:140-144 | the sort's result is ordered by key and is a permutation of its input |
| Sorting.SortStable | script.js:140-144 | for every key, the elements with that key keep their input order |
| Sorting.SortedIsThreeGroups | script.js:140-144 | a sorted list with keys 0..2 is its key-0, key-1 and key-2 elements in turn |
| Projects.Order | script.js:135-144 | the shown list is sorted by first-match index, is a permutation of the filtered list, and holds exactly the matching repositories |
| Projects.OrderStable | script.js:140-144 | shown repositories of equal rank keep their input order, and none of rank -1 is shown |
| Projects.OrderIsGrouped | script.js:132-144 | the shown list equals all `fortal` repositories, then all `taskhub`, then all `linktree`, each group in input order |
| Projects.Placeholder | script.js:161 | the placeholder URL contains the decimal id |
| Projects.PlaceholderInjective | script.js:161 | two ids give the same placeholder iff they are equal |
| Projects.Image | script.js:150-162 | the image is the asset of the first matching preference, and the id-seeded placeholder when nothing matches |
| Projects.Tags | script.js:166-167 | the tags are the first min(3, n) topics in order, and none when topics are absent |
| Projects.OrderSize | script.js:195-198 | the grid is empty exactly when no repository matches, and never longer than the input |
| Projects.RenderProjects | script.js:128-199 | every card shows a local asset, so the placeholder branch is unreachable here, and the cards are the grouped order's cards |
| Scenarios.MixedNames | script.js:132-144 | `alpha, FortalX, taskhub-api, random` shows `FortalX` then `taskhub-api` |
| Scenarios.MixedCaseImage | script.js:150-155 | `MyTaskHubApp` is kept with rank 1 and gets the taskhub asset |
| Scenarios.UnlistedImage | script.js:159-162 | `obscureproject` with id 42 is dropped, and its image would be the placeholder containing `42` |
| Scenarios.FiveTopics | script.js:166 | five topics show as the first three |
| Loader.Decide | script.js:89-102 | cached data is used iff an entry exists, is under an hour old and is non-empty; a parse failure is reported; otherwise a fetch is needed |
| Loader.Load | script.js:88-125 | a fetch happens iff the stored value parses and is missing, an hour old or older, or empty; the fallback appears iff parsing, fetching or the write fails; a fetched listing replaces the cache with the write time |
| Loader.ReloadWithinHourUsesCache | script.js:93-111 | after a fetch of a non-empty listing, a load within the hour skips the network and shows the same cards |
| Loader.ReloadAfterHourFetches | script.js:95-111 | an hour or more after the write, the next load fetches |
| Loader.FetchAndStore | script.js:103-125 | after a fetch, the cards show iff the response is a listing and the write succeeds; then the cache holds the listing stamped with the write time; otherwise the fallback shows and the cache is unchanged |
| Loader.CorruptEntrySticks | script.js:93-125 | for every clock, response and write result, a load from an unreadable entry shows the fallback, does not fetch, and keeps the bad entry |
| Loader.LoadRecovering | script.js:93-125 | with an unreadable entry treated like a missing one, a fetch happens iff no fresh non-empty entry parses, and the fallback appears iff that fetch or the write fails |
| Loader.CorruptEntryRecovers | script.js:93-111 | under the recovering load, one successful fetch replaces a bad entry, and a load within the hour then reads the cache |
| Loader.LoadRecoveringAgrees | script.js:88-125 | the recovering load equals the as-written load whenever the stored value parses |
| Hex.ToHex | script.js:253 | `toString(16)` writes lower-case digits with no leading zero, whose value is the number and whose count fits its magnitude |
| Hex.ToHexLength | script.js:253 | the digit count of `toString(16)` is fixed by the number's power-of-16 range |
| Colors.ParseInt16OfHex | script.js:246 | `parseInt(_, 16)` of a non-empty string of hex digits is its value |
| Colors.ParseToHex | script.js:246 | `parseInt(_, 16)` reads back what `toString(16)` writes |
| Colors.HexPrefix | script.js:246 | the digits `parseInt` consumes are the longest all-hex prefix |
| Colors.ToInt32 | script.js:247 | the 32-bit view used by `>>` and `&` is the signed value congruent to the number modulo 2^32 |
| Colors.AdjustBrightness | script.js:243-254 | the output has a leading `#` iff the input has one, and its digits spell the packed adjusted channels |
| Colors.AdjustedChannels | script.js:246-252 | for a six-digit colour each channel becomes clamp(channel + amt, 0, 255) and stays in its own byte |
| Colors.AdjustBrightnessChannels | script.js:246-253 | the printed digits of a six-digit colour decode to the clamped channels |
| Colors.AdjustBrightnessWidth | script.js:253 | the digit count is 6 when the new red is at least 16, 5 when it is 1..15, and fewer when it is 0 |
| Colors.AdjustBrightnessPadded | script.js:253 | with zero padding the output is always six hex digits decoding to the adjusted channels |
| Colors.PaddingAgrees | script.js:253 | when the new red is at least 16, padding changes nothing |
| Colors.LighteningBlackLosesDigit | script.js:253 | lightening `#000000` by 10 prints `#a0a0a`, where padding gives `#0a0a0a` |
| Colors.AvatarHex | script.js:223 | the avatar encoding is six lower-case hex digits that decode back to the pixel |
| Colors.RgbText | script.js:228 | the `r, g, b` text reads back to the pixel's channels, where reading accepts only three canonical decimal numerals below 256 (digits, no leading zero) separated by `, ` |
| Colors.RgbTextUnique | script.js:228 | any text that reads back to a pixel is exactly that pixel's `r, g, b` text |
| Strings.NumeralUnique | script.js:228 | a canonical decimal numeral is the shortest decimal text of its value |
| Colors.AvatarAccent | script.js:218-228 | nothing is set iff all three channels are below 20; otherwise the accent is `#` and six lower-case hex digits spelling the pixel, the light accent is the as-written `adjustBrightness(accent, 20)` spelling each channel plus 20 saturated, and the rgb text reads back to the pixel |

## Left out

- The custom cursor, mobile menu, smooth scrolling and parallax (script.js:10-80, 257-286). They are DOM event wiring and floating-point animation.
- `fetch`, `localStorage`, `JSON.parse` and `Date.now()`. They are I/O and foreign calls. Their results are parameters of `Loader.Load`: the stored value (absent, unparsable or an entry), the response, the two clock readings and whether the write succeeds.
- The card markup and `innerHTML` (script.js:118-124, 169-192). `Card` holds the values a card shows, not its HTML, and HTML escaping is not modelled.
- Projects.Description and Projects.Language (script.js:179, 184): modelled without a stated property. They only choose what a card's markup shows: the default text for an absent or empty description, and no badge for an absent or empty language.
- The `highlight` class (script.js:164, 170). It is always on, so it decides nothing.
- The `console` logging, including the warning for an empty grid. The empty grid itself is modelled.
- The canvas, `getImageData`, the image-load event and the CORS `catch` of `extractAvatarColors` (script.js:203-217, 229-239). They are browser APIs. The pixel is a parameter.
- Strings.ToLower: lower-cases ASCII letters only. `toLowerCase` follows Unicode, which can turn a non-ASCII letter (the Kelvin sign, say) into an ASCII one that then matches.
- Colors.ParseInt16: does not skip leading white space, and reads long digit strings exactly, whereas `parseInt` rounds beyond 2^53.
- Colors.AdjustBrightness: takes an integer amount. A fractional or `NaN` amount, which JavaScript's comparisons and shifts would handle, is not modelled.
- Strings.DecimalString: does not model the exponent notation JavaScript uses for magnitudes of 10^21 and above.
- Records are assumed to be well-formed. A missing name, a non-array `data` or a non-numeric timestamp would make the source throw or compare with `NaN`, and those paths are not modelled.
- A second load racing the first on the cache is not modelled, because the script loads once.

## Findings

| source | as written | input that shows it | evidently intended | confidence | as-written member | corrected member |
|---|---|---|---|---|---|---|
| script.js:253 | the packed colour is printed with `toString(16)` and no padding, so a new red below 16 drops leading zeros | `adjustBrightness("#000000", 10)` gives `#a0a0a` | `#0a0a0a`: six digits, padded with zeros | not executed; latent, because the only call (script.js:224) passes 20, so the new red is at least 20 there | Colors.LighteningBlackLosesDigit | Colors.AdjustBrightnessPadded |
| script.js:93-125 | a cached value `JSON.parse` rejects throws into the `catch`, which shows the fallback card but leaves the key in place | `localStorage["github_repos_v1"] = "{"` with a working network: every load shows the fallback card and never fetches | fetch as when there is no cache; a successful write replaces the entry | not executed; needs the stored value to be corrupted outside the script | Loader.CorruptEntrySticks | Loader.LoadRecovering |

`Loader.LoadRecoveringAgrees` shows that the corrected load changes only the
unreadable-entry case.

`Colors.AvatarAccent` computes the light accent with `Colors.AdjustBrightnessPadded`.
Its contract also proves that, at this call, the result equals the as-written
`Colors.AdjustBrightness`.

=== FILE: colors.dfy ===
/**
 * Colour arithmetic of script.js: `adjustBrightness`, which shifts every
 * channel of a hex colour by the same amount, and the encoding of the
 * avatar's centre pixel as a `#rrggbb` accent colour.
 */
module Colors {
  import opened Options
  import opened Strings
  import opened Hex

  type Byte = x: int | 0 <= x < 256

  datatype Rgb = Rgb(red: Byte, green: Byte, blue: Byte)

  /** `(r << 16) | (g << 8) | b`: the fields do not overlap, so the bitwise or is a sum. */
  function Pack(c: Rgb): (v: nat)
    ensures v < 0x100_0000
  {
    c.red * 0x10000 + c.green * 0x100 + c.blue
  }

  /** The channels of a 24-bit colour value. */
  function Unpack(v: nat): Rgb
    requires v < 0x100_0000
  {
    Rgb(v / 0x10000, (v / 0x100) % 0x100, v % 0x100)
  }

  lemma UnpackPack(c: Rgb)
    ensures Unpack(Pack(c)) == c
  {
    var v := Pack(c);
    assert v == c.red * 0x10000 + (c.green * 0x100 + c.blue);
    assert v / 0x100 == c.red * 0x100 + c.green;
  }

  /** The per-channel saturation of lines 248, 250 and 252. */
  function Clamp(v: int): (c: Byte)
    ensures 0 <= v <= 255 ==> c == v
    ensures v > 255 ==> c == 255
    ensures v < 0 ==> c == 0
  {
    if v > 255 then 255 else if v < 0 then 0 else v
  }

  // ----- parseInt(_, 16) and the 32-bit view of the shift operators -----

  /** The longest prefix of `s` made of hex digits. */
  function HexPrefix(s: string): (d: string)
    ensures |d| <= |s|
    ensures AllHex(d)
    ensures d == s[..|d|]
    ensures |d| == |s| || !IsHexDigit(s[|d|])
  {
    if |s| > 0 && IsHexDigit(s[0]) then
      var rest := HexPrefix(s[1..]);
      assert s[1..][..|rest|] == s[1..|rest| + 1];
      assert ([s[0]] + rest)[1..] == rest;
      [s[0]] + rest
    else []
  }

  lemma {:induction false} HexPrefixOfHex(s: string)
    requires AllHex(s)
    ensures HexPrefix(s) == s
    decreases |s|
  {
    if |s| > 0 {
      HexPrefixOfHex(s[1..]);
      assert s == [s[0]] + s[1..];
    }
  }

  /**
   * `parseInt(s, 16)`, `None` standing for `NaN`: an optional sign, an
   * optional `0x`/`0X`, then as many hex digits as there are.
   */
  function ParseInt16(s: string): Option<int> {
    var negative := |s| > 0 && s[0] == '-';
    var unsigned := if |s| > 0 && (s[0] == '-' || s[0] == '+') then s[1..] else s;
    var body := if |unsigned| >= 2 && unsigned[0] == '0' && (unsigned[1] == 'x' || unsigned[1] == 'X')
                then unsigned[2..] else unsigned;
    var digits := HexPrefix(body);
    if |digits| == 0 then None
    else if negative then Some(-(HexValue(digits) as int))
    else Some(HexValue(digits))
  }

  /** A non-empty string of hex digits parses to its value. */
  lemma ParseInt16OfHex(s: string)
    requires |s| > 0 && AllHex(s)
    ensures ParseInt16(s) == Some(HexValue(s))
  {
    HexPrefixOfHex(s);
    assert IsHexDigit(s[0]);
    assert s[0] != '-' && s[0] != '+';
    assert !(|s| >= 2 && s[0] == '0' && (s[1] == 'x' || s[1] == 'X')) by {
      if |s| >= 2 {
        assert IsHexDigit(s[1]);
      }
    }
  }

  /** `parseInt(_, 16)` reads back what `toString(16)` writes. */
  lemma ParseToHex(n: nat)
    ensures ParseInt16(ToHex(n)) == Some(n)
  {
    ParseInt16OfHex(ToHex(n));
  }

  /** ECMAScript's ToInt32, applied to the operands of `>>` and `&`. */
  function ToInt32(x: int): (r: int)
    ensures -0x8000_0000 <= r < 0x8000_0000
    ensures (x - r) % 0x1_0000_0000 == 0
  {
    var m := x % 0x1_0000_0000;
    if m >= 0x8000_0000 then m - 0x1_0000_0000 else m
  }

  /** Values that fit in 31 bits are their own 32-bit view. */
  lemma ToInt32Small(x: int)
    requires 0 <= x < 0x8000_0000
    ensures ToInt32(x) == x
  {
  }

  // ----- adjustBrightness -----

  predicate HasPound(s: string) {
    |s| > 0 && s[0] == '#'
  }

  /** The colour digits of `s`, after an optional leading `#`. */
  function HexBody(s: string): string {
    if HasPound(s) then s[1..] else s
  }

  /**
   * Lines 244-246: the number `parseInt` reads from the digits, as the shift
   * operators see it. When no digit parses, `parseInt` gives `NaN`, which
   * ToInt32 turns into 0.
   */
  function ParsedColor(col: string): (n: int)
    ensures -0x8000_0000 <= n < 0x8000_0000
  {
    match ParseInt16(HexBody(col))
    case Some(v) => ToInt32(v)
    case None => 0
  }

  /**
   * Lines 247-252: the three adjusted channels. The source names the middle
   * byte `b` and the low byte `g` but puts each back where it came from, so
   * the channels here are named by position.
   */
  function Adjusted(col: string, amt: int): Rgb {
    var n := ParsedColor(col);
    Rgb(Clamp(n / 0x10000 + amt), Clamp((n / 0x100) % 0x100 + amt), Clamp(n % 0x100 + amt))
  }

  /** `adjustBrightness(col, amt)` as written: the packed value printed by `toString(16)`, unpadded. */
  function AdjustBrightness(col: string, amt: int): (r: string)
    ensures HasPound(r) <==> HasPound(col)
    ensures |HexBody(r)| >= 1 && AllLowerHex(HexBody(r)) && AllHex(HexBody(r))
    ensures HexValue(HexBody(r)) == Pack(Adjusted(col, amt))
  {
    var digits := ToHex(Pack(Adjusted(col, amt)));
    if HasPound(col) then
      assert ("#" + digits)[1..] == digits;
      "#" + digits
    else
      digits
  }

  /** The number of digits printed depends on the adjusted red channel. */
  lemma AdjustBrightnessWidth(col: string, amt: int)
    ensures var c := Adjusted(col, amt);
            var w := |HexBody(AdjustBrightness(col, amt))|;
            && (c.red >= 16 ==> w == 6)
            && (1 <= c.red < 16 ==> w == 5)
            && (c.red == 0 && c.green >= 16 ==> w == 4)
            && (c.red == 0 && 1 <= c.green < 16 ==> w == 3)
            && (c.red == 0 && c.green == 0 && c.blue >= 16 ==> w == 2)
            && (c.red == 0 && c.green == 0 && c.blue < 16 ==> w == 1)
  {
    var c := Adjusted(col, amt);
    var v := Pack(c);
    assert HexBody(AdjustBrightness(col, amt)) == ToHex(v);
    assert Pow16(1) == 0x10 && Pow16(2) == 0x100 && Pow16(3) == 0x1000;
    assert Pow16(4) == 0x1_0000 && Pow16(5) == 0x10_0000 && Pow16(6) == 0x100_0000;
    if c.red >= 16 {
      ToHexLength(v, 6);
    } else if c.red >= 1 {
      ToHexLength(v, 5);
    } else if c.green >= 16 {
      ToHexLength(v, 4);
    } else if c.green >= 1 {
      ToHexLength(v, 3);
    } else if c.blue >= 16 {
      ToHexLength(v, 2);
    } else {
      ToHexLength(v, 1);
    }
  }

  /** A colour written as six hex digits, with or without a leading `#`. */
  predicate IsHexColor(col: string) {
    |HexBody(col)| == 6 && AllHex(HexBody(col))
  }

  /** The channels a six-digit colour spells. */
  function ColorOf(col: string): Rgb
    requires IsHexColor(col)
  {
    HexValueBound(HexBody(col));
    assert Pow16(6) == 0x100_0000;
    Unpack(HexValue(HexBody(col)))
  }

  /** For a six-digit colour every channel moves by `amt`, saturating at 0 and 255, and stays in place. */
  lemma AdjustedChannels(col: string, amt: int)
    requires IsHexColor(col)
    ensures var c := ColorOf(col);
            Adjusted(col, amt) == Rgb(Clamp(c.red + amt), Clamp(c.green + amt), Clamp(c.blue + amt))
  {
    var body := HexBody(col);
    ParseInt16OfHex(body);
    HexValueBound(body);
    assert Pow16(6) == 0x100_0000;
    ToInt32Small(HexValue(body));
    assert ParsedColor(col) == HexValue(body);
  }

  /** The digits `adjustBrightness` prints spell the adjusted channels. */
  lemma AdjustBrightnessChannels(col: string, amt: int)
    requires IsHexColor(col)
    ensures var c := ColorOf(col);
            var out := AdjustBrightness(col, amt);
            HexValue(HexBody(out)) < 0x100_0000
            && Unpack(HexValue(HexBody(out))) == Rgb(Clamp(c.red + amt), Clamp(c.green + amt), Clamp(c.blue + amt))
  {
    AdjustedChannels(col, amt);
    UnpackPack(Adjusted(col, amt));
  }

  /** `toString(16)` of a 24-bit value, zero-padded to six digits. */
  function SixDigits(v: nat): (digits: string)
    requires v < 0x100_0000
    ensures |digits| == 6 && AllLowerHex(digits) && AllHex(digits)
    ensures HexValue(digits) == v
  {
    var hex := ToHex(v);
    assert Pow16(6) == 0x100_0000;
    assert |hex| <= 6 by {
      if |hex| > 6 {
        Pow16Monotone(6, |hex| - 1);
      }
    }
    var digits := PadLeft(hex, 6);
    assert digits == seq(6 - |hex|, _ => '0') + hex;
    HexValueLeadingZeros(6 - |hex|, hex);
    digits
  }

  /**
   * `adjustBrightness` with the digits zero-padded to six, so that the
   * result is always a well-formed colour.
   */
  function AdjustBrightnessPadded(col: string, amt: int): (r: string)
    ensures HasPound(r) <==> HasPound(col)
    ensures IsHexColor(r) && AllLowerHex(HexBody(r))
    ensures ColorOf(r) == Adjusted(col, amt)
  {
    var digits := SixDigits(Pack(Adjusted(col, amt)));
    UnpackPack(Adjusted(col, amt));
    if HasPound(col) then
      assert ("#" + digits)[1..] == digits;
      "#" + digits
    else
      digits
  }

  /** Where the adjusted red channel has two digits, padding changes nothing. */
  lemma PaddingAgrees(col: string, amt: int)
    requires Adjusted(col, amt).red >= 16
    ensures AdjustBrightness(col, amt) == AdjustBrightnessPadded(col, amt)
  {
    AdjustBrightnessWidth(col, amt);
    var hex := ToHex(Pack(Adjusted(col, amt)));
    assert |hex| == 6;
    assert PadLeft(hex, 6) == hex;
    assert SixDigits(Pack(Adjusted(col, amt))) == hex;
  }

  lemma BlackChannels(col: string)
    requires col == "#000000"
    ensures IsHexColor(col) && ColorOf(col) == Rgb(0, 0, 0)
    ensures Adjusted(col, 10) == Rgb(10, 10, 10)
  {
    assert HexBody(col) == seq(6, _ => '0');
    ZerosValue(6);
    AdjustedChannels(col, 10);
  }

  lemma NearBlackDigits()
    ensures ToHex(0x0a0a0a) == "a0a0a"
    ensures SixDigits(0x0a0a0a) == "0a0a0a"
  {
    assert HexChar(0) == '0' && HexChar(10) == 'a';
    assert ToHex(0xa) == "a";
    assert ToHex(0xa0) == ToHex(0xa) + "0" == "a0";
    assert ToHex(0xa0a) == ToHex(0xa0) + "a" == "a0a";
    assert ToHex(0xa0a0) == ToHex(0xa0a) + "0" == "a0a0";
    assert ToHex(0xa0a0a) == ToHex(0xa0a0) + "a" == "a0a0a";
    assert PadLeft("a0a0a", 6) == seq(1, _ => '0') + "a0a0a" == "0a0a0a";
  }

  /**
   * Lightening black by 10 gives red 10, which `toString(16)` prints
   * without its leading zero: five digits, not a colour. Padding restores it.
   */
  lemma LighteningBlackLosesDigit(col: string)
    requires col == "#000000"
    ensures AdjustBrightness(col, 10) == "#a0a0a"
    ensures AdjustBrightnessPadded(col, 10) == "#0a0a0a"
  {
    BlackChannels(col);
    NearBlackDigits();
    assert Pack(Rgb(10, 10, 10)) == 0x0a0a0a;
  }

  // ----- the avatar accent colour -----

  /** `((1 << 24) + (r << 16) + (g << 8) + b).toString(16).slice(1)` on line 223. */
  function AvatarHex(c: Rgb): (h: string)
    ensures |h| == 6 && AllLowerHex(h) && AllHex(h)
    ensures HexValue(h) == Pack(c)
    ensures Unpack(HexValue(h)) == c
  {
    var n := 0x100_0000 + Pack(c);
    var t := ToHex(n);
    assert Pow16(6) == 0x100_0000 && Pow16(7) == 0x1000_0000;
    ToHexLength(n, 7);
    var lead, rest := t[..1], t[1..];
    assert t == lead + rest;
    HexValueAppend(lead, rest);
    HexValueBound(rest);
    assert n == HexValue(lead) * 0x100_0000 + HexValue(rest);
    assert HexValue(lead) == 1;
    UnpackPack(c);
    rest
  }

  /** The test on line 221: a pixel too dark to serve as an accent. */
  predicate IsDark(c: Rgb) {
    c.red < 20 && c.green < 20 && c.blue < 20
  }

  /** The three custom properties set on lines 226-228. */
  datatype Accent = Accent(accent: string, accentLight: string, accentRgb: string)

  /** The position of the first `,` in `s`, or `|s|` when there is none. */
  function CommaAt(s: string): (i: nat)
    ensures i <= |s|
    ensures i < |s| ==> s[i] == ','
    ensures forall k :: 0 <= k < i ==> s[k] != ','
  {
    if |s| == 0 || s[0] == ',' then 0 else 1 + CommaAt(s[1..])
  }

  /** A comma directly after comma-free text is the first one. */
  lemma {:induction false} CommaAfter(a: string, t: string)
    requires forall k :: 0 <= k < |a| ==> a[k] != ','
    requires |t| > 0 && t[0] == ','
    ensures CommaAt(a + t) == |a|
    decreases |a|
  {
    if |a| > 0 {
      assert (a + t)[1..] == a[1..] + t;
      CommaAfter(a[1..], t);
    }
  }

  /** One channel of the `r, g, b` text: a canonical numeral below 256. */
  function ParseChannel(t: string): Option<Byte> {
    if IsNumeral(t) && DigitsValue(t) < 256 then Some(DigitsValue(t)) else None
  }

  /** Reads `r, g, b` back: three canonical decimal numerals below 256 separated by `, `. */
  function ParseRgbText(s: string): Option<Rgb> {
    var i := CommaAt(s);
    if i + 1 >= |s| || s[i + 1] != ' ' then None
    else
      var rest := s[i + 2..];
      var j := CommaAt(rest);
      if j + 1 >= |rest| || rest[j + 1] != ' ' then None
      else
        match (ParseChannel(s[..i]), ParseChannel(rest[..j]), ParseChannel(rest[j + 2..]))
        case (Some(r), Some(g), Some(b)) => Some(Rgb(r, g, b))
        case _ => None
  }

  /** The decimal text of a channel is a numeral that reads back to it. */
  lemma ChannelText(x: Byte)
    ensures ParseChannel(DecimalString(x)) == Some(x)
  {
    var t := DecimalString(x);
    assert IsNumeral(t);
    assert ParseDecimal(t) == DigitsValue(t);
  }

  /** A decimal numeral has no comma in it. */
  lemma NoCommaInDecimal(n: int)
    ensures forall k :: 0 <= k < |DecimalString(n)| ==> DecimalString(n)[k] != ','
  {
    var s := DecimalString(n);
    var d := if n < 0 then s[1..] else s;
    forall k | 0 <= k < |s| ensures s[k] != ',' {
      if n < 0 && k > 0 {
        assert s[k] == d[k - 1];
      } else if n >= 0 {
        assert s[k] == d[k];
      }
    }
  }

  /** Splitting `a, t` at its first comma gives back `a` and `t`. */
  lemma SplitAtComma(a: string, t: string)
    requires forall k :: 0 <= k < |a| ==> a[k] != ','
    ensures var s := a + ", " + t;
            CommaAt(s) == |a| && |a| + 1 < |s| && s[|a| + 1] == ' ' && s[..|a|] == a && s[|a| + 2..] == t
  {
    var s := a + ", " + t;
    assert s == a + (", " + t);
    CommaAfter(a, ", " + t);
  }

  /** Line 228: the `r, g, b` text of the pixel, which reads back to its channels. */
  function RgbText(c: Rgb): (s: string)
    ensures ParseRgbText(s) == Some(c)
  {
    var a, g, b := DecimalString(c.red), DecimalString(c.green), DecimalString(c.blue);
    var tail := g + ", " + b;
    NoCommaInDecimal(c.red);
    NoCommaInDecimal(c.green);
    ChannelText(c.red);
    ChannelText(c.green);
    ChannelText(c.blue);
    SplitAtComma(a, tail);
    SplitAtComma(g, b);
    a + ", " + tail
  }

  /** A channel's text is the decimal text of its value. */
  lemma ChannelUnique(t: string, x: Byte)
    requires ParseChannel(t) == Some(x)
    ensures t == DecimalString(x)
  {
    NumeralUnique(t);
  }

  /** Text with `, ` at position `i` is the parts before and after joined by `, `. */
  lemma JoinAt(s: string, i: nat)
    requires i + 1 < |s| && s[i] == ',' && s[i + 1] == ' '
    ensures s == s[..i] + ", " + s[i + 2..]
  {
    var t := s[..i] + ", " + s[i + 2..];
    assert |t| == |s|;
    forall k | 0 <= k < |s| ensures t[k] == s[k] {
      if k < i {
        assert t[k] == s[..i][k];
      } else if k >= i + 2 {
        assert t[k] == s[i + 2..][k - i - 2];
      }
    }
  }

  /** The `r, g, b` text is the only text that reads back to the pixel. */
  lemma RgbTextUnique(s: string, c: Rgb)
    requires ParseRgbText(s) == Some(c)
    ensures s == RgbText(c)
  {
    var i := CommaAt(s);
    var rest := s[i + 2..];
    var j := CommaAt(rest);
    ChannelUnique(s[..i], c.red);
    ChannelUnique(rest[..j], c.green);
    ChannelUnique(rest[j + 2..], c.blue);
    JoinAt(rest, j);
    JoinAt(s, i);
  }

  /** What `applyColor` sets from the centre pixel, or `None` when it returns early. */
  function AvatarAccent(c: Rgb): (a: Option<Accent>)
    ensures a.None? <==> IsDark(c)
    ensures a.Some? ==> HasPound(a.value.accent) && IsHexColor(a.value.accent) && ColorOf(a.value.accent) == c
    ensures a.Some? ==> AllLowerHex(HexBody(a.value.accent))
    ensures a.Some? ==> a.value.accentLight == AdjustBrightness(a.value.accent, 20)
    ensures a.Some? ==> HasPound(a.value.accentLight) && IsHexColor(a.value.accentLight)
                        && ColorOf(a.value.accentLight) == Rgb(Clamp(c.red + 20), Clamp(c.green + 20), Clamp(c.blue + 20))
    ensures a.Some? ==> ParseRgbText(a.value.accentRgb) == Some(c)
  {
    if IsDark(c) then None
    else
      var hex := "#" + AvatarHex(c);
      assert HexBody(hex) == AvatarHex(c);
      assert ColorOf(hex) == c;
      AdjustedChannels(hex, 20);
      var adjusted := Rgb(Clamp(c.red + 20), Clamp(c.green + 20), Clamp(c.blue + 20));
      assert Adjusted(hex, 20) == adjusted;
      PaddingAgrees(hex, 20);
      var light := AdjustBrightness(hex, 20);
      assert ColorOf(light) == adjusted;
      Some(Accent(hex, light, RgbText(c)))
  }
}

=== FILE: hex.dfy ===
/**
 * Base-16 numerals: `Number.prototype.toString(16)` on non-negative
 * integers (lower-case digits, no leading zeros) and the value of a string
 * of hex digits as `parseInt(_, 16)` reads it (either case).
 */
module Hex {

  function Pow16(k: nat): (p: nat)
    ensures p >= 1
  {
    if k == 0 then 1 else 16 * Pow16(k - 1)
  }

  predicate IsHexDigit(c: char) {
    '0' <= c <= '9' || 'a' <= c <= 'f' || 'A' <= c <= 'F'
  }

  /** The digits `toString(16)` writes. */
  predicate IsLowerHexDigit(c: char) {
    '0' <= c <= '9' || 'a' <= c <= 'f'
  }

  predicate AllHex(s: string) {
    forall i :: 0 <= i < |s| ==> IsHexDigit(s[i])
  }

  predicate AllLowerHex(s: string) {
    forall i :: 0 <= i < |s| ==> IsLowerHexDigit(s[i])
  }

  function HexDigitValue(c: char): (d: nat)
    requires IsHexDigit(c)
    ensures d < 16
  {
    if '0' <= c <= '9' then c as int - '0' as int
    else if 'a' <= c <= 'f' then c as int - 'a' as int + 10
    else c as int - 'A' as int + 10
  }

  function HexChar(d: nat): (c: char)
    requires d < 16
    ensures IsLowerHexDigit(c) && IsHexDigit(c)
    ensures HexDigitValue(c) == d
  {
    "0123456789abcdef"[d]
  }

  /** The value of a string of hex digits, most significant first; 0 for the empty string. */
  function HexValue(s: string): nat
    requires AllHex(s)
  {
    if |s| == 0 then 0 else 16 * HexValue(s[..|s| - 1]) + HexDigitValue(s[|s| - 1])
  }

  lemma AllHexAppend(a: string, b: string)
    requires AllHex(a) && AllHex(b)
    ensures AllHex(a + b)
  {
    forall i | 0 <= i < |a + b| ensures IsHexDigit((a + b)[i]) {
      if i < |a| {
        assert (a + b)[i] == a[i];
      } else {
        assert (a + b)[i] == b[i - |a|];
      }
    }
  }

  lemma MulShift(x: nat, p: nat)
    ensures x * (16 * p) == 16 * (x * p)
  {
  }

  /** A numeral splits into a high part and a low part at any position. */
  lemma {:induction false} HexValueAppend(a: string, b: string)
    requires AllHex(a) && AllHex(b)
    ensures AllHex(a + b)
    ensures HexValue(a + b) == HexValue(a) * Pow16(|b|) + HexValue(b)
    decreases |b|
  {
    AllHexAppend(a, b);
    if |b| == 0 {
      assert a + b == a;
    } else {
      var b', last := b[..|b| - 1], b[|b| - 1];
      var ab := a + b;
      assert ab[..|ab| - 1] == a + b';
      assert ab[|ab| - 1] == last;
      HexValueAppend(a, b');
      var x, p, y := HexValue(a), Pow16(|b'|), HexValue(b');
      assert HexValue(ab) == 16 * (x * p + y) + HexDigitValue(last);
      assert HexValue(b) == 16 * y + HexDigitValue(last);
      assert Pow16(|b|) == 16 * p;
      MulShift(x, p);
    }
  }

  /** `k` hex digits hold a value below `16^k`. */
  lemma {:induction false} HexValueBound(s: string)
    requires AllHex(s)
    ensures HexValue(s) < Pow16(|s|)
    decreases |s|
  {
    if |s| > 0 {
      HexValueBound(s[..|s| - 1]);
    }
  }

  /** Leading zeros do not change the value. */
  lemma {:induction false} HexValueLeadingZeros(k: nat, s: string)
    requires AllHex(s)
    ensures AllHex(seq(k, _ => '0') + s)
    ensures HexValue(seq(k, _ => '0') + s) == HexValue(s)
    decreases k
  {
    var zs := seq(k, _ => '0');
    HexValueAppend(zs, s);
    ZerosValue(k);
  }

  lemma {:induction false} ZerosValue(k: nat)
    ensures AllHex(seq(k, _ => '0'))
    ensures HexValue(seq(k, _ => '0')) == 0
    decreases k
  {
    if k > 0 {
      assert seq(k, _ => '0')[..k - 1] == seq(k - 1, _ => '0');
      ZerosValue(k - 1);
    }
  }

  /** `n.toString(16)` for a non-negative integer `n`. */
  function ToHex(n: nat): (h: string)
    ensures |h| >= 1
    ensures AllLowerHex(h) && AllHex(h)
    ensures HexValue(h) == n
    ensures |h| == 1 || h[0] != '0'
    ensures n < Pow16(|h|)
    ensures |h| == 1 || Pow16(|h| - 1) <= n
  {
    if n < 16 then [HexChar(n)]
    else
      var h := ToHex(n / 16) + [HexChar(n % 16)];
      assert h[..|h| - 1] == ToHex(n / 16);
      h
  }

  /** The number of digits `toString(16)` writes is fixed by the magnitude of `n`. */
  lemma ToHexLength(n: nat, k: nat)
    requires k >= 1
    requires (k == 1 || Pow16(k - 1) <= n) && n < Pow16(k)
    ensures |ToHex(n)| == k
  {
    var h := ToHex(n);
    if |h| < k {
      Pow16Monotone(|h|, k - 1);
    } else if |h| > k {
      Pow16Monotone(k, |h| - 1);
    }
  }

  lemma {:induction false} Pow16Monotone(i: nat, j: nat)
    requires i <= j
    ensures Pow16(i) <= Pow16(j)
    decreases j
  {
    if i < j {
      Pow16Monotone(i, j - 1);
    }
  }

  /** `s.padStart(width, '0')`. */
  function PadLeft(s: string, width: nat): (r: string)
    ensures |r| == if |s| < width then width else |s|
    ensures r[|r| - |s|..] == s
    ensures forall i :: 0 <= i < |r| - |s| ==> r[i] == '0'
  {
    if |s| < width then seq(width - |s|, _ => '0') + s else s
  }
}

=== FILE: loader.dfy ===
/**
 * `loadGitHubProjects`: the one-hour cache in front of the GitHub listing
 * and what ends up in the project grid. Storage, the clock and the network
 * are parameters: the stored entry as read, the times `Date.now()` returns
 * at the freshness test and at the cache write, the response of the fetch,
 * and whether the cache write succeeds.
 */
module Loader {
  import opened Options
  import opened Projects

  /** Age, in milliseconds, below which a cache entry is reused. */
  const CacheTime: int := 3600000

  const ProfileUrl: string := "https://github.com/DevADOBAN"

  /**
   * The value under the cache key: nothing (or an empty string), an entry, or
   * `Unparsable`. `Unparsable` covers text `JSON.parse` rejects and also a
   * `localStorage.getItem` that throws, for instance when storage is disabled.
   * Both throw into the `catch`, so the fallback shows, nothing is fetched and
   * the cache is unchanged.
   */
  datatype Stored = Missing | Unparsable | Entry(timestamp: int, data: seq<Repo>)

  /** The outcome of the listing request, after `response.json()`. */
  datatype Response = NetworkError | NotOk | BadBody | Listing(repos: seq<Repo>)

  /** The grid: rendered project cards, or the single fallback card linking the profile. */
  datatype View = Cards(cards: seq<Card>) | Fallback(link: string)

  /** The freshness decision of lines 89-102. */
  datatype Decision = UseCache(repos: seq<Repo>) | Fetch | Broken

  /** Everything one load leaves behind: the grid, the stored value, and whether the network was used. */
  datatype Outcome = Outcome(view: View, stored: Stored, fetched: bool)

  /** Lines 89-99: the working set the cache supplies, `[]` when it supplies none; `None` when parsing throws. */
  function CachedRepos(stored: Stored, now: int): Option<seq<Repo>> {
    match stored
    case Missing => Some([])
    case Unparsable => None
    case Entry(timestamp, data) => if now - timestamp < CacheTime then Some(data) else Some([])
  }

  /**
   * Lines 89-102: cached data is used only from an entry younger than an
   * hour that holds at least one repository; a fresh but empty entry is
   * fetched again, and an unreadable entry aborts the load.
   */
  function Decide(stored: Stored, now: int): (d: Decision)
    ensures d.UseCache? <==> stored.Entry? && now - stored.timestamp < CacheTime && |stored.data| > 0
    ensures d.UseCache? ==> d.repos == stored.data
    ensures d.Broken? <==> stored.Unparsable?
    ensures d.Fetch? <==> stored.Missing? || (stored.Entry? && (now - stored.timestamp >= CacheTime || |stored.data| == 0))
  {
    match CachedRepos(stored, now)
    case None => Broken
    case Some(repos) => if |repos| == 0 then Fetch else UseCache(repos)
  }

  /**
   * One run of `loadGitHubProjects`. A successful fetch overwrites the
   * cache with the new listing stamped `writeNow`; any exception inside the
   * `try` shows the fallback card and leaves the cache as it was.
   */
  function Load(stored: Stored, now: int, response: Response, writeNow: int, writeOk: bool): (o: Outcome)
    ensures o.fetched <==> stored.Missing? || (stored.Entry? && (now - stored.timestamp >= CacheTime || |stored.data| == 0))
    ensures o.view.Fallback? <==> stored.Unparsable? || (o.fetched && (!response.Listing? || !writeOk))
    ensures o.view.Fallback? ==> o.view.link == ProfileUrl && o.stored == stored
    ensures !o.fetched && !o.view.Fallback? ==> o.view == Cards(RenderProjects(stored.data)) && o.stored == stored
    ensures o.fetched && !o.view.Fallback? ==>
              o.view == Cards(RenderProjects(response.repos)) && o.stored == Entry(writeNow, response.repos)
  {
    match Decide(stored, now)
    case Broken => Outcome(Fallback(ProfileUrl), stored, false)
    case UseCache(repos) => Outcome(Cards(RenderProjects(repos)), stored, false)
    case Fetch => FetchAndStore(stored, response, writeNow, writeOk)
  }

  /** Lines 103-114 and the `catch`: the fetch, the cache write and the render that follows. */
  function FetchAndStore(stored: Stored, response: Response, writeNow: int, writeOk: bool): (o: Outcome)
    ensures o.fetched
    ensures o.view.Fallback? <==> !response.Listing? || !writeOk
    ensures o.view.Fallback? ==> o.view.link == ProfileUrl && o.stored == stored
    ensures !o.view.Fallback? ==> o.view == Cards(RenderProjects(response.repos)) && o.stored == Entry(writeNow, response.repos)
  {
    match response
    case Listing(repos) =>
      if writeOk then Outcome(Cards(RenderProjects(repos)), Entry(writeNow, repos), true)
      else Outcome(Fallback(ProfileUrl), stored, true)
    case _ => Outcome(Fallback(ProfileUrl), stored, true)
  }

  /**
   * As written, an entry `JSON.parse` rejects is never removed: the `catch`
   * leaves the key in place, so every later load throws at the same point and
   * shows the fallback card without trying the network.
   */
  lemma CorruptEntrySticks(now: int, response: Response, writeNow: int, writeOk: bool)
    ensures Load(Unparsable, now, response, writeNow, writeOk) == Outcome(Fallback(ProfileUrl), Unparsable, false)
  {
  }

  /**
   * The load with an unreadable entry treated like a missing one: the listing
   * is fetched and, when that succeeds, overwrites the bad entry.
   */
  function LoadRecovering(stored: Stored, now: int, response: Response, writeNow: int, writeOk: bool): (o: Outcome)
    ensures o.fetched <==> stored.Missing? || stored.Unparsable? || (stored.Entry? && (now - stored.timestamp >= CacheTime || |stored.data| == 0))
    ensures o.view.Fallback? <==> o.fetched && (!response.Listing? || !writeOk)
    ensures o.view.Fallback? ==> o.view.link == ProfileUrl && o.stored == stored
    ensures !o.fetched ==> o.view == Cards(RenderProjects(stored.data)) && o.stored == stored
    ensures o.fetched && !o.view.Fallback? ==>
              o.view == Cards(RenderProjects(response.repos)) && o.stored == Entry(writeNow, response.repos)
  {
    match Decide(stored, now)
    case Broken => FetchAndStore(stored, response, writeNow, writeOk)
    case UseCache(repos) => Outcome(Cards(RenderProjects(repos)), stored, false)
    case Fetch => FetchAndStore(stored, response, writeNow, writeOk)
  }

  /** Recovery: after one successful fetch the bad entry is gone and the next load within the hour reads the cache. */
  lemma CorruptEntryRecovers(now: int, repos: seq<Repo>, writeNow: int,
                             later: int, response': Response, writeNow': int, writeOk': bool)
    requires |repos| > 0
    requires later - writeNow < CacheTime
    ensures var first := LoadRecovering(Unparsable, now, Listing(repos), writeNow, true);
            var second := LoadRecovering(first.stored, later, response', writeNow', writeOk');
            first.view == Cards(RenderProjects(repos)) && first.stored == Entry(writeNow, repos)
            && !second.fetched && second.view == first.view
  {
  }

  /** Apart from an unreadable entry, the recovering load behaves exactly like the original. */
  lemma LoadRecoveringAgrees(stored: Stored, now: int, response: Response, writeNow: int, writeOk: bool)
    requires !stored.Unparsable?
    ensures LoadRecovering(stored, now, response, writeNow, writeOk) == Load(stored, now, response, writeNow, writeOk)
  {
  }

  /**
   * A load that fetches (the stored value is missing, stale or empty) and
   * gets a non-empty listing lets every load within the next hour skip the
   * network and show the same cards, whatever the network would say.
   */
  lemma ReloadWithinHourUsesCache(stored: Stored, now: int, repos: seq<Repo>, writeNow: int,
                                  later: int, response': Response, writeNow': int, writeOk': bool)
    requires stored.Missing? || (stored.Entry? && (now - stored.timestamp >= CacheTime || |stored.data| == 0))
    requires |repos| > 0
    requires later - writeNow < CacheTime
    ensures var first := Load(stored, now, Listing(repos), writeNow, true);
            var second := Load(first.stored, later, response', writeNow', writeOk');
            !second.fetched && second.view == first.view && second.stored == first.stored
  {
  }

  /** After a load that fetches, a load an hour or more after the write fetches again. */
  lemma ReloadAfterHourFetches(stored: Stored, now: int, repos: seq<Repo>, writeNow: int,
                               later: int, response': Response, writeNow': int, writeOk': bool)
    requires stored.Missing? || (stored.Entry? && (now - stored.timestamp >= CacheTime || |stored.data| == 0))
    requires later - writeNow >= CacheTime
    ensures Load(Load(stored, now, Listing(repos), writeNow, true).stored, later, response', writeNow', writeOk').fetched
  {
  }
}

=== FILE: options.dfy ===
/** Optional values: JavaScript's `undefined`/`null` fields and `NaN` results. */
module Options {

  datatype Option<+T> = None | Some(value: T) {

    /** The value, or `default` when absent (JavaScript's `x ?? default`, and `x || default` for an array `x`). */
    function GetOr(default: T): T {
      match this
      case Some(v) => v
      case None => default
    }
  }
}

=== FILE: projects.dfy ===
/**
 * The project grid's selection logic (`renderProjects` in script.js): which
 * GitHub repositories are shown, in which order, with which image and tags.
 * The HTML of a card is not modelled; a `Card` holds the values it shows.
 */
module Projects {
  import opened Options
  import opened Strings
  import opened Seqs
  import opened Sorting

  /** The fields of a GitHub repository record that the grid reads. */
  datatype Repo = Repo(
    name: string,
    id: int,
    description: Option<string>,
    topics: Option<seq<string>>,
    stars: int,
    language: Option<string>,
    url: string)

  /** What one project card displays. */
  datatype Card = Card(
    title: string,
    image: string,
    description: string,
    tags: seq<string>,
    stars: int,
    language: Option<string>,
    link: string)

  /** The allow-list; its order is also the display order. */
  const Preferred: seq<string> := ["fortal", "taskhub", "linktree"]

  /** The local image of each preferred project, index for index with `Preferred`. */
  const Assets: seq<string> := ["./img/fortal.png", "./img/taskhub.png", "./img/linktree.png"]

  const DefaultDescription: string := "Projeto desenvolvido com foco em performance e qualidade."

  const MaxTags: nat := 3

  function LowerName(r: Repo): string {
    ToLower(r.name)
  }

  // ----- membership and rank -----

  /** `prefs.some(p => name.includes(p))`. */
  function SomeContained(prefs: seq<string>, name: string): (b: bool)
    ensures b <==> exists j :: 0 <= j < |prefs| && Contains(name, prefs[j])
  {
    if |prefs| == 0 then false
    else if Contains(name, prefs[0]) then true
    else
      var b := SomeContained(prefs[1..], name);
      assert forall j :: 1 <= j < |prefs| ==> prefs[j] == prefs[1..][j - 1];
      b
  }

  /** `prefs.findIndex(p => name.includes(p))`: the first matching position, or -1. */
  function FindIndex(prefs: seq<string>, name: string): (i: int)
    ensures -1 <= i < |prefs|
    ensures i == -1 <==> forall j :: 0 <= j < |prefs| ==> !Contains(name, prefs[j])
    ensures 0 <= i ==> Contains(name, prefs[i])
    ensures 0 <= i ==> forall j :: 0 <= j < i ==> !Contains(name, prefs[j])
  {
    if |prefs| == 0 then -1
    else if Contains(name, prefs[0]) then 0
    else
      var k := FindIndex(prefs[1..], name);
      assert forall j :: 1 <= j < |prefs| ==> prefs[j] == prefs[1..][j - 1];
      if k == -1 then -1 else k + 1
  }

  /** The filter of lines 135-137: the lower-cased name contains some preferred substring. */
  function Kept(r: Repo): (b: bool)
    ensures b <==> exists j :: 0 <= j < |Preferred| && Contains(LowerName(r), Preferred[j])
  {
    SomeContained(Preferred, LowerName(r))
  }

  /** The sort key of lines 141-142; -1 exactly for the records the filter drops. */
  function Rank(r: Repo): (i: int)
    ensures -1 <= i < |Preferred|
    ensures 0 <= i <==> Kept(r)
  {
    FindIndex(Preferred, LowerName(r))
  }

  /** The rank is decided by the substring tests in preference order. */
  lemma RankCases(r: Repo)
    ensures Rank(r) == (if Contains(LowerName(r), "fortal") then 0
                        else if Contains(LowerName(r), "taskhub") then 1
                        else if Contains(LowerName(r), "linktree") then 2
                        else -1)
  {
    var name, i := LowerName(r), Rank(r);
    assert Preferred[0] == "fortal" && Preferred[1] == "taskhub" && Preferred[2] == "linktree";
    assert i == FindIndex(Preferred, name);
    if i == -1 {
      assert !Contains(name, Preferred[0]) && !Contains(name, Preferred[1]) && !Contains(name, Preferred[2]);
    } else {
      assert Contains(name, Preferred[i]);
      assert forall j :: 0 <= j < i ==> !Contains(name, Preferred[j]);
    }
  }

  /** The filter step: the records whose name matches the allow-list, in input order. */
  function Keep(repos: seq<Repo>): (kept: seq<Repo>)
    ensures forall x :: x in kept <==> x in repos && Kept(x)
    ensures IsSubsequence(kept, repos)
    ensures forall x :: multiset(kept)[x] == if Kept(x) then multiset(repos)[x] else 0
  {
    FilterMembers(Kept, repos);
    FilterIsSubsequence(Kept, repos);
    FilterMultiset(Kept, repos);
    Filter(Kept, repos)
  }

  // ----- ordering -----

  /** The records of `s` whose first matching preference is `Preferred[k]`, in their order in `s`. */
  function WithRank(s: seq<Repo>, k: int): seq<Repo> {
    Filter(KeyIs(Rank, k), s)
  }

  /** The displayed order (lines 135-144): the filtered records, stably sorted by rank. */
  function Order(repos: seq<Repo>): (shown: seq<Repo>)
    ensures SortedBy(Rank, shown)
    ensures multiset(shown) == multiset(Keep(repos))
    ensures forall x :: x in shown <==> x in repos && Kept(x)
  {
    var shown := SortBy(Rank, Keep(repos));
    assert forall x :: x in shown <==> x in multiset(shown);
    assert forall x :: x in Keep(repos) <==> x in multiset(Keep(repos));
    shown
  }

  /**
   * Records of equal rank appear in the order they had in the input; no
   * record of rank -1 (matching no preference) appears at all.
   */
  lemma OrderStable(repos: seq<Repo>, k: int)
    ensures WithRank(Order(repos), k) == if 0 <= k then WithRank(repos, k) else []
  {
    SortStable(Rank, Keep(repos), k);
    if 0 <= k {
      FilterFilter(KeyIs(Rank, k), Kept, repos);
    } else {
      FilterNone(KeyIs(Rank, k), Order(repos));
    }
  }

  /**
   * An independent description of the display order: every `fortal` record,
   * then every `taskhub` record, then every `linktree` record, each group in
   * input order. Any stable sort of the filtered list yields exactly this.
   */
  lemma OrderIsGrouped(repos: seq<Repo>)
    ensures Order(repos) == WithRank(repos, 0) + WithRank(repos, 1) + WithRank(repos, 2)
  {
    var shown := Order(repos);
    SortedIsThreeGroups(Rank, shown);
    OrderStable(repos, 0);
    OrderStable(repos, 1);
    OrderStable(repos, 2);
  }

  // ----- per-card values -----

  /** The seeded placeholder image of line 161. */
  function Placeholder(id: int): (url: string)
    ensures Contains(url, DecimalString(id))
  {
    ContainsConcat("https://picsum.photos/seed/", DecimalString(id), "/400/200");
    "https://picsum.photos/seed/" + DecimalString(id) + "/400/200"
  }

  /** Different ids give different placeholders; equal ids the same one. */
  lemma PlaceholderInjective(a: int, b: int)
    ensures Placeholder(a) == Placeholder(b) <==> a == b
  {
    if Placeholder(a) == Placeholder(b) {
      var prefix := "https://picsum.photos/seed/";
      var u := Placeholder(a);
      assert u[|prefix|..|u| - 8] == DecimalString(a);
      assert Placeholder(b)[|prefix|..|Placeholder(b)| - 8] == DecimalString(b);
      DecimalStringInjective(a, b);
    }
  }

  /** The image chain of lines 150-162 picks the asset of the first matching preference. */
  function Image(r: Repo): (url: string)
    ensures 0 <= Rank(r) ==> url == Assets[Rank(r)]
    ensures Rank(r) == -1 ==> url == Placeholder(r.id)
  {
    RankCases(r);
    var name := LowerName(r);
    if Contains(name, "fortal") then "./img/fortal.png"
    else if Contains(name, "taskhub") then "./img/taskhub.png"
    else if Contains(name, "linktree") then "./img/linktree.png"
    else Placeholder(r.id)
  }

  /** `(repo.topics || []).slice(0, 3)`. */
  function Tags(r: Repo): (tags: seq<string>)
    ensures r.topics.None? ==> tags == []
    ensures r.topics.Some? ==> |tags| == (if |r.topics.value| < MaxTags then |r.topics.value| else MaxTags)
    ensures r.topics.Some? ==> tags == r.topics.value[..|tags|]
  {
    var topics := r.topics.GetOr([]);
    if |topics| <= MaxTags then topics else topics[..MaxTags]
  }

  /** `repo.description || default`: an empty description also shows the default text. */
  function Description(r: Repo): string {
    match r.description
    case Some(d) => if d == "" then DefaultDescription else d
    case None => DefaultDescription
  }

  /** The language badge, omitted when the language is absent or empty. */
  function Language(r: Repo): Option<string> {
    match r.language
    case Some(l) => if l == "" then None else Some(l)
    case None => None
  }

  function CardFor(r: Repo): Card {
    Card(r.name, Image(r), Description(r), Tags(r), r.stars, Language(r), r.url)
  }

  function CardsFor(s: seq<Repo>): (cards: seq<Card>)
    ensures |cards| == |s|
  {
    seq(|s|, i requires 0 <= i < |s| => CardFor(s[i]))
  }

  /** The filter keeps nothing exactly when no record matches; the sort adds and drops nothing. */
  lemma OrderSize(repos: seq<Repo>)
    ensures |Order(repos)| <= |repos|
    ensures |Order(repos)| == 0 <==> forall x :: x in repos ==> !Kept(x)
  {
    var shown := Order(repos);
    assert |multiset(shown)| == |multiset(Keep(repos))|;
    if |shown| > 0 {
      assert shown[0] in shown;
    }
  }

  /** Every card built from kept records shows one of the local assets. */
  lemma CardImages(shown: seq<Repo>)
    requires forall x :: x in shown ==> Kept(x)
    ensures forall i :: 0 <= i < |shown| ==> CardsFor(shown)[i].image in Assets
  {
    forall i | 0 <= i < |shown| ensures CardsFor(shown)[i].image in Assets {
      assert shown[i] in shown;
    }
  }

  lemma CardsForAppend(a: seq<Repo>, b: seq<Repo>)
    ensures CardsFor(a + b) == CardsFor(a) + CardsFor(b)
  {
    var l, r := CardsFor(a + b), CardsFor(a) + CardsFor(b);
    forall i | 0 <= i < |l| ensures l[i] == r[i] {
      if i < |a| {
        assert (a + b)[i] == a[i];
      } else {
        assert (a + b)[i] == b[i - |a|];
      }
    }
  }

  /**
   * `renderProjects`: the cards that replace the grid's contents. The
   * container is cleared first (line 129), so the result depends on the
   * working set alone.
   */
  function RenderProjects(repos: seq<Repo>): (cards: seq<Card>)
    ensures |cards| <= |repos|
    ensures |cards| == 0 <==> forall x :: x in repos ==> !Kept(x)
    ensures forall i :: 0 <= i < |cards| ==> cards[i].image in Assets
    ensures cards == CardsFor(WithRank(repos, 0)) + CardsFor(WithRank(repos, 1)) + CardsFor(WithRank(repos, 2))
  {
    var shown := Order(repos);
    OrderSize(repos);
    CardImages(shown);
    OrderIsGrouped(repos);
    CardsForAppend(WithRank(repos, 0), WithRank(repos, 1));
    CardsForAppend(WithRank(repos, 0) + WithRank(repos, 1), WithRank(repos, 2));
    CardsFor(shown)
  }
}

=== FILE: scenarios.dfy ===
/** Concrete working sets and what the grid shows for them. */
module Scenarios {
  import opened Options
  import opened Strings
  import opened Seqs
  import opened Sorting
  import opened Projects

  /** The rank groups of a four-record working set, element by element. */
  lemma WithRankOfFour(a: Repo, b: Repo, c: Repo, d: Repo, k: int)
    ensures WithRank([a, b, c, d], k)
         == (if Rank(a) == k then [a] else []) + ((if Rank(b) == k then [b] else [])
          + ((if Rank(c) == k then [c] else []) + (if Rank(d) == k then [d] else [])))
  {
    var p := KeyIs(Rank, k);
    assert [a, b, c, d] == [a] + [b, c, d] && [b, c, d] == [b] + [c, d] && [c, d] == [c] + [d];
    FilterCons(p, a, [b, c, d]);
    FilterCons(p, b, [c, d]);
    FilterCons(p, c, [d]);
    FilterCons(p, d, []);
    assert [d] == [d] + [];
    var xd := if Rank(d) == k then [d] else [];
    assert xd + [] == xd;
  }

  lemma TwoGroups<T>(x: T, y: T)
    ensures [x] + [y] + [] == [x, y]
  {
  }

  /** A name starting with "Fortal" in any case ranks first. */
  lemma FortalXRank(f: Repo)
    requires f.name == "FortalX"
    ensures Rank(f) == 0
  {
    var fn := LowerName(f);
    assert fn == "fortalx";
    assert fn[..6] == "fortal";
    RankCases(f);
  }

  lemma TaskhubApiRank(t: Repo)
    requires t.name == "taskhub-api"
    ensures Rank(t) == 1
  {
    var tn := LowerName(t);
    assert tn == "taskhub-api";
    assert tn[..7] == "taskhub";
    ContainsNeedsFirstChar(tn, "fortal");
    RankCases(t);
  }

  lemma AlphaRank(a: Repo)
    requires a.name == "alpha"
    ensures Rank(a) == -1
  {
    var an := LowerName(a);
    assert an == "alpha";
    ContainsNeedsRoom(an, "fortal");
    ContainsNeedsRoom(an, "taskhub");
    ContainsNeedsRoom(an, "linktree");
    RankCases(a);
  }

  lemma RandomRank(r: Repo)
    requires r.name == "random"
    ensures Rank(r) == -1
  {
    var rn := LowerName(r);
    assert rn == "random";
    ContainsNeedsFirstChar(rn, "fortal");
    ContainsNeedsFirstChar(rn, "taskhub");
    ContainsNeedsFirstChar(rn, "linktree");
    RankCases(r);
  }

  /** Case-insensitive matching, preference order wins, non-matching names are dropped. */
  lemma MixedNames(a: Repo, f: Repo, t: Repo, r: Repo)
    requires a.name == "alpha" && f.name == "FortalX" && t.name == "taskhub-api" && r.name == "random"
    ensures Order([a, f, t, r]) == [f, t]
  {
    AlphaRank(a);
    FortalXRank(f);
    TaskhubApiRank(t);
    RandomRank(r);
    OrderIsGrouped([a, f, t, r]);
    WithRankOfFour(a, f, t, r, 0);
    WithRankOfFour(a, f, t, r, 1);
    WithRankOfFour(a, f, t, r, 2);
    var s := [a, f, t, r];
    assert WithRank(s, 0) == [f];
    assert WithRank(s, 1) == [t];
    assert WithRank(s, 2) == [];
    TwoGroups(f, t);
  }

  /** A name containing "TaskHub" in mixed case gets the taskhub asset. */
  lemma MixedCaseImage(r: Repo)
    requires r.name == "MyTaskHubApp"
    ensures Kept(r) && Rank(r) == 1
    ensures Image(r) == "./img/taskhub.png"
  {
    MixedCaseLower(r);
    MixedCaseMatches(LowerName(r));
    RankCases(r);
  }

  lemma MixedCaseLower(r: Repo)
    requires r.name == "MyTaskHubApp"
    ensures LowerName(r) == "mytaskhubapp"
  {
  }

  lemma MixedCaseMatches(n: string)
    requires n == "mytaskhubapp"
    ensures !Contains(n, "fortal") && Contains(n, "taskhub")
  {
    assert OccursAt(n, "taskhub", 2) by {
      assert n[2..9] == "taskhub";
    }
    OccursAtContains(n, "taskhub", 2);
    ContainsNeedsFirstChar(n, "fortal");
  }

  lemma ObscureProjectLower(r: Repo)
    requires r.name == "obscureproject"
    ensures LowerName(r) == "obscureproject"
  {
  }

  lemma ObscureProjectMatchesNothing(n: string)
    requires n == "obscureproject"
    ensures !Contains(n, "fortal") && !Contains(n, "taskhub") && !Contains(n, "linktree")
  {
    ContainsNeedsFirstChar(n, "fortal");
    ContainsNeedsFirstChar(n, "taskhub");
    ContainsNeedsFirstChar(n, "linktree");
  }

  lemma ObscureProjectRank(r: Repo)
    requires r.name == "obscureproject"
    ensures Rank(r) == -1
  {
    ObscureProjectLower(r);
    ObscureProjectMatchesNothing(LowerName(r));
    RankCases(r);
  }

  lemma FortyTwo()
    ensures DecimalString(42) == "42"
  {
    assert Digits(4) == "4";
    assert Digits(42) == Digits(4) + [DigitChar(2)];
  }

  /** An unlisted name is dropped, and the image it would get is the placeholder seeded by its id. */
  lemma UnlistedImage(r: Repo)
    requires r.name == "obscureproject" && r.id == 42
    ensures !Kept(r)
    ensures Image(r) == Placeholder(42)
    ensures Contains(Image(r), "42")
  {
    ObscureProjectRank(r);
    FortyTwo();
  }

  /** Five topics show as their first three tags. */
  lemma FiveTopics(r: Repo)
    requires r.topics == Some(["api", "web", "java", "spring", "sql"])
    ensures Tags(r) == ["api", "web", "java"]
  {
  }
}

=== FILE: seqs.dfy ===
/** `Array.prototype.filter` on sequences, with the facts the project filter relies on. */
module Seqs {

  /** The elements of `s` satisfying `p`, in their original order. */
  function Filter<T(!new)>(p: T -> bool, s: seq<T>): (r: seq<T>)
    ensures |r| <= |s|
  {
    if |s| == 0 then []
    else
      assert s == [s[0]] + s[1..];
      (if p(s[0]) then [s[0]] else []) + Filter(p, s[1..])
  }

  /** Filtering a sequence with a known first element. */
  lemma FilterCons<T(!new)>(p: T -> bool, x: T, s: seq<T>)
    ensures Filter(p, [x] + s) == (if p(x) then [x] else []) + Filter(p, s)
  {
    assert ([x] + s)[1..] == s;
  }

  /** The filter keeps exactly the elements satisfying `p`. */
  lemma {:induction false} FilterMembers<T(!new)>(p: T -> bool, s: seq<T>)
    ensures forall x :: x in Filter(p, s) <==> x in s && p(x)
    decreases |s|
  {
    if |s| > 0 {
      FilterMembers(p, s[1..]);
      assert s == [s[0]] + s[1..];
    }
  }

  /** Each element passing the filter is kept as often as it occurs; every other is dropped. */
  lemma {:induction false} FilterMultiset<T(!new)>(p: T -> bool, s: seq<T>)
    ensures forall x :: multiset(Filter(p, s))[x] == if p(x) then multiset(s)[x] else 0
    decreases |s|
  {
    if |s| > 0 {
      FilterMultiset(p, s[1..]);
      assert s == [s[0]] + s[1..];
      assert multiset(s) == multiset{s[0]} + multiset(s[1..]);
    }
  }

  /** `a` is obtained from `b` by deleting elements. */
  predicate IsSubsequence<T(==)>(a: seq<T>, b: seq<T>)
    decreases |b|
  {
    |a| == 0 || (|b| > 0 && ((a[0] == b[0] && IsSubsequence(a[1..], b[1..])) || IsSubsequence(a, b[1..])))
  }

  lemma {:induction false} FilterIsSubsequence<T(!new)>(p: T -> bool, s: seq<T>)
    ensures IsSubsequence(Filter(p, s), s)
    decreases |s|
  {
    if |s| > 0 {
      FilterIsSubsequence(p, s[1..]);
      var r := Filter(p, s);
      if p(s[0]) {
        assert r[0] == s[0] && r[1..] == Filter(p, s[1..]);
      } else {
        assert r == Filter(p, s[1..]);
      }
    }
  }

  /** Nothing passes the filter when no element satisfies the predicate. */
  lemma {:induction false} FilterNone<T(!new)>(p: T -> bool, s: seq<T>)
    requires forall x :: x in s ==> !p(x)
    ensures Filter(p, s) == []
    decreases |s|
  {
    if |s| > 0 {
      assert s[0] in s;
      assert forall x :: x in s[1..] ==> x in s;
      FilterNone(p, s[1..]);
    }
  }

  /** Filtering by `p` after filtering by a weaker `q` is filtering by `p` alone. */
  lemma {:induction false} FilterFilter<T(!new)>(p: T -> bool, q: T -> bool, s: seq<T>)
    requires forall x :: p(x) ==> q(x)
    ensures Filter(p, Filter(q, s)) == Filter(p, s)
    decreases |s|
  {
    if |s| > 0 {
      var t := Filter(q, s[1..]);
      FilterFilter(p, q, s[1..]);
      if q(s[0]) {
        var u := [s[0]] + t;
        assert Filter(q, s) == u;
        assert u[0] == s[0] && u[1..] == t;
        assert Filter(p, u) == (if p(s[0]) then [s[0]] else []) + Filter(p, t);
      } else {
        assert Filter(q, s) == t;
      }
    }
  }
}

=== FILE: sorting.dfy ===
/**
 * A stable sort by an integer key, the behaviour `Array.prototype.sort` has
 * had to provide since ECMAScript 2019 for a comparator `(a, b) => key(a) - key(b)`.
 */
module Sorting {
  import opened Seqs

  ghost predicate SortedBy<T>(key: T -> int, s: seq<T>) {
    forall i, j :: 0 <= i < j < |s| ==> key(s[i]) <= key(s[j])
  }

  function KeyIs<T>(key: T -> int, k: int): T -> bool {
    x => key(x) == k
  }

  /** A sorted sequence with an element in front that no later key undercuts. */
  lemma SortedCons<T>(key: T -> int, x: T, s: seq<T>)
    ensures SortedBy(key, [x] + s) <==> SortedBy(key, s) && forall y :: y in s ==> key(x) <= key(y)
  {
    var r := [x] + s;
    assert forall j :: 0 <= j < |s| ==> s[j] == r[j + 1];
    if SortedBy(key, s) && forall y :: y in s ==> key(x) <= key(y) {
      forall i, j | 0 <= i < j < |r| ensures key(r[i]) <= key(r[j]) {
        assert r[j] == s[j - 1] && s[j - 1] in s;
        if i > 0 {
          assert r[i] == s[i - 1];
        }
      }
    }
    if SortedBy(key, r) {
      forall y | y in s ensures key(x) <= key(y) {
        var j :| 0 <= j < |s| && s[j] == y;
        assert r[j + 1] == y;
        assert key(r[0]) <= key(r[j + 1]);
      }
    }
  }

  /** What is in a multiset built from `t` and `x` is `x` or in `t`. */
  lemma MultisetMember<T>(r: seq<T>, t: seq<T>, x: T)
    requires multiset(r) == multiset(t) + multiset{x}
    ensures forall y :: y in r ==> y == x || y in t
  {
    forall y | y in r ensures y == x || y in t {
      assert y in multiset(r);
    }
  }

  /** Inserts `x` into a sorted sequence ahead of every element of equal or larger key. */
  function Insert<T(!new)>(key: T -> int, x: T, t: seq<T>): (r: seq<T>)
    ensures SortedBy(key, t) ==> SortedBy(key, r)
    ensures multiset(r) == multiset(t) + multiset{x}
  {
    if |t| == 0 || key(x) <= key(t[0]) then [x] + t
    else
      var rest := Insert(key, x, t[1..]);
      assert t == [t[0]] + t[1..];
      SortedCons(key, t[0], t[1..]);
      MultisetMember(rest, t[1..], x);
      SortedCons(key, t[0], rest);
      [t[0]] + rest
  }

  /** Insertion sort: each element goes in front of the sorted rest's elements of equal key. */
  function SortBy<T(!new)>(key: T -> int, s: seq<T>): (r: seq<T>)
    ensures SortedBy(key, r)
    ensures multiset(r) == multiset(s)
  {
    if |s| == 0 then []
    else
      assert s == [s[0]] + s[1..];
      Insert(key, s[0], SortBy(key, s[1..]))
  }

  /** Inserting `x` puts it in front of the elements of its own key and moves nothing else. */
  lemma {:induction false} InsertStable<T(!new)>(key: T -> int, x: T, t: seq<T>, k: int)
    ensures Filter(KeyIs(key, k), Insert(key, x, t))
         == (if key(x) == k then [x] else []) + Filter(KeyIs(key, k), t)
    decreases |t|
  {
    if |t| == 0 || key(x) <= key(t[0]) {
      FilterCons(KeyIs(key, k), x, t);
    } else {
      var p := KeyIs(key, k);
      var rest := Insert(key, x, t[1..]);
      assert Insert(key, x, t) == [t[0]] + rest;
      InsertStable(key, x, t[1..], k);
      FilterCons(p, t[0], rest);
      assert t == [t[0]] + t[1..];
      FilterCons(p, t[0], t[1..]);
      var own: seq<T> := if key(x) == k then [x] else [];
      var front: seq<T> := if p(t[0]) then [t[0]] else [];
      SwapDisjoint(own, front, Filter(p, t[1..]));
    }
  }

  /** Two parts of which at least one is empty can trade places. */
  lemma SwapDisjoint<T>(a: seq<T>, b: seq<T>, tail: seq<T>)
    requires a == [] || b == []
    ensures a + (b + tail) == b + (a + tail)
  {
    if a == [] {
      assert a + (b + tail) == b + tail == b + (a + tail);
    } else {
      assert a + (b + tail) == a + tail == b + (a + tail);
    }
  }

  /** Stability: for each key, the elements with that key keep their relative order. */
  lemma {:induction false} SortStable<T(!new)>(key: T -> int, s: seq<T>, k: int)
    ensures Filter(KeyIs(key, k), SortBy(key, s)) == Filter(KeyIs(key, k), s)
    decreases |s|
  {
    if |s| > 0 {
      SortStable(key, s[1..], k);
      InsertStable(key, s[0], SortBy(key, s[1..]), k);
      assert s == [s[0]] + s[1..];
      FilterCons(KeyIs(key, k), s[0], s[1..]);
    }
  }

  /** Putting in front an element whose key no later element undercuts keeps the grouping. */
  lemma GroupsOfCons<T(!new)>(key: T -> int, x: T, t: seq<T>)
    requires 0 <= key(x) < 3
    requires forall y :: y in t ==> key(x) <= key(y)
    requires t == Filter(KeyIs(key, 0), t) + Filter(KeyIs(key, 1), t) + Filter(KeyIs(key, 2), t)
    ensures [x] + t == Filter(KeyIs(key, 0), [x] + t) + Filter(KeyIs(key, 1), [x] + t) + Filter(KeyIs(key, 2), [x] + t)
  {
    var f0, f1, f2 := Filter(KeyIs(key, 0), t), Filter(KeyIs(key, 1), t), Filter(KeyIs(key, 2), t);
    FilterCons(KeyIs(key, 0), x, t);
    FilterCons(KeyIs(key, 1), x, t);
    FilterCons(KeyIs(key, 2), x, t);
    if key(x) == 0 {
      ConsIntoFirst(x, f0, f1, f2);
    } else if key(x) == 1 {
      FilterNone(KeyIs(key, 0), t);
      ConsIntoSecond(x, f1, f2);
    } else {
      FilterNone(KeyIs(key, 0), t);
      FilterNone(KeyIs(key, 1), t);
      ConsIntoThird(x, f2);
    }
  }

  lemma ConsIntoFirst<T>(x: T, a: seq<T>, b: seq<T>, c: seq<T>)
    ensures [x] + (a + b + c) == ([x] + a) + b + c
  {
  }

  lemma ConsIntoSecond<T>(x: T, b: seq<T>, c: seq<T>)
    ensures [x] + ([] + b + c) == [] + ([x] + b) + c
  {
  }

  lemma ConsIntoThird<T>(x: T, c: seq<T>)
    ensures [x] + ([] + [] + c) == [] + [] + ([x] + c)
  {
  }

  /** A sorted sequence whose keys are 0, 1 or 2 is its key-0, key-1 and key-2 groups in turn. */
  lemma {:induction false} SortedIsThreeGroups<T(!new)>(key: T -> int, t: seq<T>)
    requires SortedBy(key, t)
    requires forall y :: y in t ==> 0 <= key(y) < 3
    ensures t == Filter(KeyIs(key, 0), t) + Filter(KeyIs(key, 1), t) + Filter(KeyIs(key, 2), t)
    decreases |t|
  {
    if |t| > 0 {
      var x, t' := t[0], t[1..];
      assert t == [x] + t';
      assert forall y :: y in t' ==> y in t;
      SortedCons(key, x, t');
      SortedIsThreeGroups(key, t');
      GroupsOfCons(key, x, t');
    }
  }
}

=== FILE: strings.dfy ===
/**
 * Character-level text operations used by the project filter: ASCII
 * lower-casing (`String.prototype.toLowerCase`), substring search
 * (`String.prototype.includes`) and decimal rendering of integers
 * (template-literal interpolation of a number).
 */
module Strings {

  /** An ASCII upper-case letter. */
  predicate IsUpper(c: char) {
    'A' <= c <= 'Z'
  }

  /** Lower-cases one ASCII letter; every other character is left alone. */
  function LowerChar(c: char): (d: char)
    ensures !IsUpper(d)
    ensures IsUpper(c) || d == c
    ensures IsUpper(c) ==> 'a' <= d <= 'z' && d as int - 'a' as int == c as int - 'A' as int
  {
    if IsUpper(c) then (c as int + 32) as char else c
  }

  /** `s.toLowerCase()`, restricted to ASCII letters. */
  function ToLower(s: string): (r: string)
    ensures |r| == |s|
    ensures forall i :: 0 <= i < |s| ==> r[i] == LowerChar(s[i])
  {
    if |s| == 0 then [] else [LowerChar(s[0])] + ToLower(s[1..])
  }

  predicate StartsWith(s: string, prefix: string) {
    |prefix| <= |s| && s[..|prefix|] == prefix
  }

  /** `sub` occurs in `s` starting at position `i`. */
  predicate OccursAt(s: string, sub: string, i: int) {
    0 <= i && i + |sub| <= |s| && s[i..i + |sub|] == sub
  }

  /** `s.includes(sub)`: scans the start positions of `s` from left to right. */
  predicate Contains(s: string, sub: string)
    decreases |s|
  {
    StartsWith(s, sub) || (|s| > 0 && Contains(s[1..], sub))
  }

  /** An occurrence at position `i` is found by the scan. */
  lemma {:induction false} OccursAtContains(s: string, sub: string, i: int)
    requires OccursAt(s, sub, i)
    ensures Contains(s, sub)
    decreases i
  {
    if i > 0 {
      assert forall k :: i <= k < i + |sub| ==> s[1..][k - 1] == s[k];
      assert s[1..][i - 1..i - 1 + |sub|] == s[i..i + |sub|];
      OccursAtContains(s[1..], sub, i - 1);
    }
  }

  /** The scan finds `sub` exactly when some position of `s` holds an occurrence of it. */
  lemma {:induction false} ContainsIff(s: string, sub: string)
    ensures Contains(s, sub) <==> exists i :: OccursAt(s, sub, i)
    decreases |s|
  {
    if exists i :: OccursAt(s, sub, i) {
      var i :| OccursAt(s, sub, i);
      OccursAtContains(s, sub, i);
    }
    if Contains(s, sub) {
      if StartsWith(s, sub) {
        assert OccursAt(s, sub, 0);
      } else {
        ContainsIff(s[1..], sub);
        var i :| OccursAt(s[1..], sub, i);
        assert s[1..][i..i + |sub|] == s[i + 1..i + 1 + |sub|];
        assert OccursAt(s, sub, i + 1);
      }
    }
  }

  /** Nothing longer than `s` occurs in it. */
  lemma {:induction false} ContainsNeedsRoom(s: string, sub: string)
    requires |s| < |sub|
    ensures !Contains(s, sub)
    decreases |s|
  {
    if |s| > 0 {
      ContainsNeedsRoom(s[1..], sub);
    }
  }

  /** A non-empty `sub` is found only where its first character occurs with room after it. */
  lemma {:induction false} ContainsNeedsFirstChar(s: string, sub: string)
    requires |sub| > 0
    requires forall i :: 0 <= i && i + |sub| <= |s| ==> s[i] != sub[0]
    ensures !Contains(s, sub)
    decreases |s|
  {
    if |s| > 0 {
      assert |sub| <= |s| ==> s[..|sub|][0] == s[0];
      ContainsNeedsFirstChar(s[1..], sub);
    }
  }

  /** Every string contains its own prefixes and suffixes, and so everything around them. */
  lemma {:induction false} ContainsConcat(a: string, sub: string, b: string)
    ensures Contains(a + sub + b, sub)
  {
    var s := a + sub + b;
    assert s[|a|..|a| + |sub|] == sub;
    assert OccursAt(s, sub, |a|);
    ContainsIff(s, sub);
  }

  // ----- decimal integers -----

  predicate IsDigit(c: char) {
    '0' <= c <= '9'
  }

  function DigitValue(c: char): (d: nat)
    requires IsDigit(c)
    ensures d < 10
  {
    c as int - '0' as int
  }

  function DigitChar(d: nat): (c: char)
    requires d < 10
    ensures IsDigit(c) && DigitValue(c) == d
  {
    (d + '0' as int) as char
  }

  /** The decimal value of a string of digits, most significant first. */
  function DigitsValue(s: string): nat
    requires forall i :: 0 <= i < |s| ==> IsDigit(s[i])
  {
    if |s| == 0 then 0 else 10 * DigitsValue(s[..|s| - 1]) + DigitValue(s[|s| - 1])
  }

  /** The shortest decimal numeral of `n`, as `String(n)` writes a non-negative integer. */
  function Digits(n: nat): (s: string)
    ensures |s| >= 1
    ensures forall i :: 0 <= i < |s| ==> IsDigit(s[i])
    ensures DigitsValue(s) == n
    ensures |s| == 1 || s[0] != '0'
  {
    if n < 10 then [DigitChar(n)]
    else
      var s := Digits(n / 10) + [DigitChar(n % 10)];
      assert s[..|s| - 1] == Digits(n / 10);
      s
  }

  /** A canonical numeral: digits only, at least one, and no leading zero unless it is `0`. */
  predicate IsNumeral(t: string) {
    |t| >= 1 && (forall i :: 0 <= i < |t| ==> IsDigit(t[i])) && (|t| == 1 || t[0] != '0')
  }

  /** A digit string that does not start with `0` has a positive value. */
  lemma {:induction false} LeadingDigitPositive(t: string)
    requires |t| >= 1 && (forall i :: 0 <= i < |t| ==> IsDigit(t[i])) && t[0] != '0'
    ensures DigitsValue(t) > 0
    decreases |t|
  {
    if |t| > 1 {
      LeadingDigitPositive(t[..|t| - 1]);
    }
  }

  /** A canonical numeral is the one `Digits` writes for its value. */
  lemma {:induction false} NumeralUnique(t: string)
    requires IsNumeral(t)
    ensures t == Digits(DigitsValue(t))
    decreases |t|
  {
    if |t| == 1 {
      assert DigitChar(DigitValue(t[0])) == t[0];
    } else {
      var p, d := t[..|t| - 1], t[|t| - 1];
      assert p[0] == t[0];
      LeadingDigitPositive(p);
      NumeralUnique(p);
      var n := DigitsValue(t);
      assert n == 10 * DigitsValue(p) + DigitValue(d);
      assert n / 10 == DigitsValue(p) && n % 10 == DigitValue(d);
      assert DigitChar(DigitValue(d)) == d;
      assert t == p + [d];
    }
  }

  /** `String(n)` for an integer `n`: a minus sign before the digits of a negative number. */
  function DecimalString(n: int): (s: string)
    ensures |s| >= 1
    ensures (n < 0) <==> s[0] == '-'
    ensures var d := if n < 0 then s[1..] else s;
      |d| >= 1 && (forall i :: 0 <= i < |d| ==> IsDigit(d[i])) && (|d| == 1 || d[0] != '0')
    ensures ParseDecimal(s) == n
  {
    if n < 0 then "-" + Digits(-n) else Digits(n)
  }

  /** Reads back what `DecimalString` writes. */
  function ParseDecimal(s: string): int {
    if |s| > 0 && s[0] == '-' && forall i :: 1 <= i < |s| ==> IsDigit(s[i]) then
      -(DigitsValue(s[1..]) as int)
    else if forall i :: 0 <= i < |s| ==> IsDigit(s[i]) then
      DigitsValue(s)
    else
      0
  }

  /** Distinct integers are written differently. */
  lemma DecimalStringInjective(m: int, n: int)
    requires DecimalString(m) == DecimalString(n)
    ensures m == n
  {
    assert ParseDecimal(DecimalString(m)) == m;
  }
}
